=== FILE: README.md ===
# Virtual shopping assistant — a Dafny model of its deterministic core

The assistant takes a free-text shopping query and asks a locally hosted
language model to turn it into a list of intents. It then runs each intent
against one of five mock store functions: product search, discount
calculation, shipping estimate, competitor price comparison and return
policy lookup. Finally it asks the model to phrase the collected results as
a reply.

This project models the parts that do not depend on the language model:

- `tools.py`: the five store functions, each a pure function over a
  constant table (modules `Catalog`, `Shipping`, `Promo`, `Pricing`,
  `Policy` in `tools.dfy`).
- `agent.py`: the slice that cuts a JSON array out of the model's reply,
  and the rule that turns a free-text budget into a price ceiling (module
  `Extraction`, `extraction.dfy`).
- `agent.py`: the dispatch loop of `process_query`, with its results
  dictionary and its `thoughts` and `actions` traces (module `Agent`,
  `agent.dfy`).

Shared pieces live in `common.dfy`:
- `Common` holds `Option`, `Result` and the order-preserving `Filter` that a
  Python list comprehension performs.
- `Assoc` models a Python `dict` as an association list. Iteration follows
  first insertion, and re-assigning a key keeps its position.

The two model calls are inputs of the model:
- The intent extraction outcome is a parameter of type
  `Option<seq<Intent>>`. `None` stands for a transport error or a reply
  that does not decode.
- The phraser is a function parameter of type `(Bundle, string) -> Option<string>`.
  `None` stands for a failed call, which the agent replaces with a fixed
  apology.

Things the proofs establish:
- The search returns exactly the catalogue entries that meet every active
  filter, in catalogue order. The query text and the stock flag never
  matter, and a ceiling of 0 is no ceiling at all.
- Shipping is the first option in table order that meets the deadline. That is the slowest and cheapest such option, although a comment at tools.py:35 speaks of the fastest; the model follows the code.
- A discount never raises a non-negative price.
- Unknown products and sellers get their sentinel results.
- The bracket slice has exactly three outcomes.
- A budget's ceiling is `int` of all its digits, taken in order; it imposes no ceiling exactly when every digit in it is `0`.
- After dispatch, each key appears once, at the position of its first
  write, and holds the value of its last write. `thoughts` has one entry
  per recognised intent, in input order.

Two behaviours of the code are easy to miss, and the model follows the code:
- An intent of an unrecognised type adds no thought at all.
- A missing `item` raises `KeyError` just as a missing `type` does, even for
  intent types that never use the item.

## Model

| member | source | states |
|---|---|---|
| Common.Filter | tools.py:19-25 | a comprehension keeps exactly the elements that satisfy its condition, and the result is a subsequence of the input (original order kept) |
| Common.FilterCounts | tools.py:19-25 | a comprehension keeps every occurrence of each element that satisfies its condition, repeated ones included, and no occurrence of any other element |
| Common.FilterAppend | tools.py:19-25 | filtering a concatenation is the concatenation of the filtered parts, so relative order survives filtering |
| Common.LowerChar | tools.py:21-22 | the ASCII part of `lower()`: an ASCII capital becomes the matching small letter, and every other character is left alone |
| Common.Lower | tools.py:21-22 | the ASCII part of `lower()`, position by position: the length is kept, no ASCII capital remains, and every character that is not an ASCII capital stays where it was |
| Assoc.Keys | agent.py:132 | `list(d.keys())`: one key per entry, in entry order |
| Assoc.Lookup | tools.py:58 | `dict.get` finds a value exactly when the key is present, and the value found is the one stored under that key |
| Assoc.Put | agent.py:114 | assigning to a dict key appends a new key at the end, leaves an existing key where it is, makes the key read back the new value, and changes no other key |
| Catalog.SearchProducts | tools.py:4-25 | a product is returned iff it is in the catalogue and meets every active colour, size and price filter; results are in catalogue order; with an active ceiling every returned price is within it; colour and size compare under ASCII case folding |
| Catalog.SearchIgnoresQuery | tools.py:4-25 | the `query` argument never changes the result |
| Catalog.ZeroCeilingIsNoCeiling | tools.py:23 | a `max_price` of 0 is falsy and filters exactly like `None` |
| Catalog.EmptyFilterIsNoFilter | tools.py:21-22 | an empty colour string filters exactly like an absent one, and so does an empty size string, whatever the other filters are |
| Catalog.SearchIgnoresCase | tools.py:21-22 | colour and size values that differ only in ASCII letter case give the same result |
| Catalog.NoFiltersReturnsCatalogue | tools.py:6-24 | with no filters the whole catalogue is returned, out-of-stock entries included (stock never filters) |
| Shipping.Select | tools.py:36-39 | the chosen option meets the deadline and no earlier option in table order does; the error record comes back iff no option meets the deadline |
| Shipping.EstimateShipping | tools.py:28-39 | a deadline of 5 or more gives standard (cost 5); 2 to 4 gives express (cost 15); 1 gives overnight (cost 25); the error record comes back iff the deadline is below 1 |
| Shipping.QuoteIsCheapestWithinDeadline | tools.py:30-38 | the quote meets the deadline and costs no more than any other option that also meets it |
| Shipping.EstimateIgnoresLocation | tools.py:28-39 | the location never changes the estimate |
| Promo.RateOf | tools.py:44-45 | the rate is one of 0, 0.1, 0.15, 0.2, and an unknown code gets rate 0 |
| Promo.ApplyDiscount | tools.py:42-47 | the original price is the base price; the final price is base × (1 − rate) with rate in {0, 0.1, 0.15, 0.2}; an unknown code leaves the price unchanged; a non-negative base gives 0 ≤ final ≤ base |
| Promo.RateOfReadsTable | tools.py:44-45 | every listed code gets exactly its own rate |
| Promo.KnownCodes | tools.py:44-47 | SAVE10, FASHION20 and WELCOME15 take 10, 20 and 15 percent off; FREESHIP takes nothing off; a code in the wrong case is unknown |
| Pricing.ComparePrices | tools.py:50-58 | the seller map comes back iff the name is exactly one of the four seeded products, and it is that product's own row of the table, with sellers SiteA–SiteD in that order; otherwise the not-found record comes back |
| Pricing.ComparePricesReadsTable | tools.py:50-58 | every seeded product name gets exactly its own seller-price row back |
| Pricing.LeatherJacketPrices | tools.py:55-58 | "Leather Jacket" gives 145, 140, 135 and 138; "leather jacket" is not found |
| Policy.GetReturnPolicy | tools.py:61-70 | the sentinel "Return policy not available." comes back iff the seller is not one of SiteA–SiteE; any other text is the seller's own table entry; SiteB gives its 14-day text |
| Policy.GetReturnPolicyReadsTable | tools.py:61-70 | every listed seller gets exactly its own policy text back |
| Extraction.Find | agent.py:49 | `find` returns -1 iff the character is absent; otherwise it returns an index holding that character with none before it |
| Extraction.RFind | agent.py:50 | `rfind` returns -1 iff the character is absent; otherwise it returns an index holding that character with none after it |
| Extraction.Slice | agent.py:52 | a Python slice is empty when its start is not below its end, and is the plain subsequence when both bounds are in range |
| Extraction.BracketSlice | agent.py:49-52 | text without `[` is left unchanged; otherwise the result is empty or starts with `[` and ends with `]` |
| Extraction.EndGuardAlwaysHolds | agent.py:50-51 | `rfind(']') + 1` is never -1, so only a missing `[` skips the slice |
| Extraction.BracketSliceBetween | agent.py:49-52 | when the last `]` comes after the first `[`, the result is the inclusive text between them |
| Extraction.BracketSliceEmpty | agent.py:49-52 | when no `]` follows the first `[`, the result is empty |
| Extraction.ParseQuery | agent.py:49-58 | a failed call yields no intents; otherwise the decoder receives the bracket slice of the reply, which is the reply unchanged when it has no `[` |
| Extraction.BudgetDigits | agent.py:108 | the digit string holds every digit character of the budget as often as the budget does, no other character, in their order |
| Extraction.BudgetDigitsAppend | agent.py:108 | the digits of a concatenation are the digits of each part, joined in order; one character contributes itself iff it is a digit |
| Extraction.MaxPrice | agent.py:108-114 | the ceiling is `None` iff the budget has no digit; otherwise it is `int` of the string of all the budget's digits in order, even when the digits are split by commas or other text |
| Extraction.MaxPriceOfDigitRun | agent.py:108-114 | a budget whose digits form one run `d` between non-digit text gets the ceiling `int(d)` |
| Extraction.DigitsValue | agent.py:114 | `int` of a digit string of length n is below 10^n |
| Extraction.DigitsValueAppend | agent.py:114 | `int` of a concatenation of digit strings is `int` of the first part shifted by the length of the second, plus `int` of the second (positional notation) |
| Extraction.DigitsValueZero | agent.py:114 | `int` of a digit string is 0 iff every digit is `0` |
| Extraction.DigitsValueLeadingZero | agent.py:114 | a leading zero does not change `int` of a digit string |
| Extraction.NoCeilingIffAllZero | agent.py:108-114 | the budget gives a falsy `max_price` (no ceiling) iff every digit in it is `0`, a budget without digits included |
| Extraction.BudgetExample | agent.py:108-114 | "under $150" becomes a ceiling of 150 |
| Agent.KeyFor | agent.py:112-130 | each of `find`, `discount`, `shipping`, `prices`, `return_policy` writes its own key (`search`, `discount`, `shipping`, `comparison`, `return_policy`), and no other type writes any |
| Agent.MissingKey | agent.py:105-106 | no `KeyError` iff both `type` and `item` are present; a missing `type` is reported first; `item` is reported only when `type` is present |
| Agent.Calls | agent.py:104-130 | the calls made are one per recognised intent, in input order, each the call that intent makes |
| Agent.CallFor | agent.py:112-130 | a well-formed intent makes a store call iff its type is one of the five recognised ones, and the call writes the key fixed for that type |
| Agent.Step | agent.py:104-130 | a missing `type` or `item` raises; an unrecognised type changes neither results nor thoughts; a recognised one writes its key (appended if new, in place if not), stores the call's result there, leaves the other keys alone and appends one thought |
| Agent.Dispatch | agent.py:102-130 | the loop raises iff some intent lacks `type` or `item`, and the error is the first such intent's missing key; otherwise the result keys are distinct |
| Agent.FirstOccurrences | agent.py:132 | the key list has each written key once, and keys appear in the order of their first write |
| Agent.LastResult | agent.py:112-130 | the value a key ends with is the result of the last call that wrote it |
| Agent.DispatchAgreesWithReference | agent.py:102-132 | for well-formed intents, the thoughts are one per recognised intent in input order; the result keys are the written keys in first-write order; each key holds the result of its last write |
| Agent.Phrase | agent.py:60-85 | the phraser's reply is the final text when the call succeeds, and the fixed apology when it fails |
| Agent.ProcessQuery | agent.py:87-135 | a failed or empty extraction gives the fixed error text with empty thoughts and actions; a missing `type`/`item` raises `KeyError` iff some intent lacks one; otherwise there is one action listing the dispatched keys, the first thought records the extracted intents, and the final text is the phraser's reply on the dispatched results, or the apology when it fails |
| Agent.ProcessQueryTrace | agent.py:99-133 | thoughts are the extraction entry and then one entry per recognised intent; the one action lists the result keys in first-write order; the phraser is given the bundle whose keys are in first-write order and hold their last-written values, and its reply, or the apology when it fails, is the final text |
| Agent.PhraserOnlyAfterDispatch | agent.py:93-97 | when extraction fails, comes back empty, or an intent raises, the phraser has no effect on the outcome |
| Agent.FindSearchesByBudget | agent.py:112-114 | a `find` intent searches with no colour or size filter and with its item ignored; a budget whose digits are all `0`, or with no digits, returns the whole catalogue |
| Agent.DiscountUsesFixedBase | agent.py:116-118 | a `discount` intent applies its own `discount_code` (the empty code when absent) to the fixed base of 35, whatever its item; SAVE10 gives 31.5 |
| Agent.ShippingAlwaysExpress | agent.py:120-122 | a `shipping` intent always gets express at cost 15, whatever its item or delivery |
| Agent.PricesUseItem | agent.py:124-126 | a `prices` intent compares the prices of its own item |
| Agent.ReturnPolicyAlwaysSiteB | agent.py:128-130 | a `return_policy` intent always gets the SiteB policy text, whatever its item |
| Agent.LaterIntentOverwrites | agent.py:112-130 | two intents of the same recognised type leave one key, holding the second intent's result |

## Left out

- The HTTP calls to the model server are left out (agent.py:24-47, 68-85). This covers payloads, headers, timeouts, status checks and reading `choices[0].message.content`. Their outcome is the `Option` reply that `ParseQuery` and `ProcessQuery` take as input.
- Reading the prompt template files and substituting `{user_query}`/`{results}` is left out. This is file I/O, and the templates are not part of this model.
- `json.loads` and `json.dumps` are left out. The decoder is a function parameter of `ParseQuery`, and `ProcessQuery` receives already-decoded intents. A JSON value that is not a list of objects is not modelled.
- Intent fields with JSON `null` or a non-string value are not modelled. Each field is either present with a value of its expected type, or absent.
- The `.strip()` of the phraser's reply (agent.py:81) belongs to the phraser, which is abstract.
- The exact f-string texts of `thoughts` and `actions` entries are left out. Each entry is a tagged record holding the values its text interpolates.
- `Common.LowerChar`: only ASCII capitals are lower-cased, while Python's `lower()` also maps non-ASCII capitals (É to é, the Kelvin sign to k), because Unicode case tables are out of scope.
- `Common.Lower`: the length is always kept, while Python's `lower()` can lengthen a string (İ becomes two code points), for the same reason.
- `Catalog.SearchProducts`: colour and size compare under ASCII case folding only, so a filter such as "BLAC" followed by the Kelvin sign matches the black products in Python but nothing in the model.
- `Catalog.SearchProducts`: the price ceiling is an integer, because the only caller passes `int(...)` of the budget digits or `None`. A fractional ceiling such as 0.5, which is truthy and admits no product, is not modelled.
- `Catalog.SearchIgnoresCase`: case folding is modelled for ASCII letters only, because Python's `str.lower()` also maps non-ASCII letters and Unicode tables are out of scope.
- `Extraction.BudgetDigits`: only the ASCII digits 0–9 are modelled, because Python's `\d` also matches other Unicode decimal digits and `int` accepts them.
- `Promo.ApplyDiscount`: prices and rates are Dafny reals, so no claim is made about IEEE double rounding of `base_price * (1 - discount)`.
- `Extraction.MaxPrice`: a digit string longer than the integer string-conversion limit of recent Python versions (4300 digits by default) makes `int` raise `ValueError`, which escapes `process_query`. The model returns the value instead, because the limit depends on the interpreter version and its configuration.
- `Shipping.EstimateShipping`: the deadline is an integer, because the dispatcher always passes 3. A fractional deadline is not modelled.
- `main.py` is a demo runner and is not part of this model. It holds query lists, printing and a bare `except`.
- The `print` diagnostics and the unused `import random` are left out.
- Running the same intents twice gives the same result. This holds because every member is a pure function, so no separate lemma states it.

=== FILE: agent.dfy ===
/**
 The deterministic middle of the shopping agent (agent.py, `process_query`):
 each extracted intent is mapped to one store call, its result is written
 under a fixed key of an insertion-ordered results dictionary, and a trace of
 thoughts and actions is built. The two language-model calls are inputs: the
 extraction outcome is a parameter and the phraser is a function parameter.
 */
module Agent {
  import opened Common
  import opened Assoc
  import opened Catalog
  import opened Shipping
  import opened Promo
  import opened Pricing
  import opened Policy
  import opened Extraction

  /**
   One element of the decoded intent list. Each field is `None` when its key
   is absent from the JSON object.
   */
  datatype Intent = Intent(
    kind: Option<string>,
    item: Option<string>,
    attributes: Option<seq<string>>,
    budget: Option<string>,
    discountCode: Option<string>,
    delivery: Option<string>)

  /** The fixed keys of the results dictionary. */
  datatype Key = SearchKey | DiscountKey | ShippingKey | ComparisonKey | ReturnPolicyKey

  /** A value stored in the results dictionary: the return value of one store call. */
  datatype ToolResult =
    | Found(products: seq<Product>)
    | Discounted(discount: Discount)
    | Shipped(estimate: Estimate)
    | Compared(comparison: Comparison)
    | PolicyText(text: string)

  /** The results dictionary, in insertion order. */
  type Bundle = seq<(Key, ToolResult)>

  /** A `thoughts` entry, as a record of what its text reports. */
  datatype Thought =
    | Extracted(intents: seq<Intent>)
    | Searching(item: string, attributes: seq<string>, budget: string)
    | ApplyingDiscount(code: string, item: string)
    | EstimatingShipping(item: string, delivery: string)
    | ComparingPrices(item: string)
    | CheckingReturnPolicy(item: string)

  /** An `actions` entry: the list of keys of the results dictionary. */
  datatype Action = ExecutedTools(keys: seq<Key>)

  /** The key whose absence raises `KeyError`. */
  datatype MissingField = TypeField | ItemField

  datatype Response = Response(thoughts: seq<Thought>, actions: seq<Action>, finalResponse: string)

  /** `process_query` either returns a response or lets a `KeyError` escape. */
  datatype Outcome = Returned(response: Response) | KeyError(missing: MissingField)

  /** What one recognised intent contributes: the key, the stored value and the thought. */
  datatype Call = Call(key: Key, result: ToolResult, thought: Thought)

  /** The bundle and the per-intent thoughts built by the dispatch loop. */
  datatype Trace = Trace(results: Bundle, thoughts: seq<Thought>)

  const ExtractionErrorMessage: string := "Error processing query. Please try again."
  const PhrasingApology: string := "Sorry, I encountered an issue generating your response."

  /** The store arguments the dispatcher hard-codes. */
  const AssumedBasePrice: real := 35.0
  const AssumedLocation: string := "New York"
  const AssumedDeadline: int := 3
  const AssumedSeller: string := "SiteB"

  /** The key an intent type writes, if the type is recognised. */
  function KeyFor(kind: string): (k: Option<Key>)
    ensures k.Some? <==> kind in {"find", "discount", "shipping", "prices", "return_policy"}
    ensures k == Some(SearchKey) <==> kind == "find"
    ensures k == Some(DiscountKey) <==> kind == "discount"
    ensures k == Some(ShippingKey) <==> kind == "shipping"
    ensures k == Some(ComparisonKey) <==> kind == "prices"
    ensures k == Some(ReturnPolicyKey) <==> kind == "return_policy"
  {
    if kind == "find" then Some(SearchKey)
    else if kind == "discount" then Some(DiscountKey)
    else if kind == "shipping" then Some(ShippingKey)
    else if kind == "prices" then Some(ComparisonKey)
    else if kind == "return_policy" then Some(ReturnPolicyKey)
    else None
  }

  /** The `KeyError` an intent raises: `"type"` is read before `"item"`. */
  function MissingKey(intent: Intent): (m: Option<MissingField>)
    ensures m.None? <==> intent.kind.Some? && intent.item.Some?
    ensures intent.kind.None? ==> m == Some(TypeField)
    ensures m == Some(ItemField) <==> intent.kind.Some? && intent.item.None?
  {
    if intent.kind.None? then Some(TypeField)
    else if intent.item.None? then Some(ItemField)
    else None
  }

  predicate WellFormed(intent: Intent)
  {
    MissingKey(intent).None?
  }

  /** A well-formed intent whose type has a key. */
  predicate Recognised(intent: Intent)
  {
    WellFormed(intent) && KeyFor(intent.kind.value).Some?
  }

  /**
   The store call and thought for one well-formed intent, with the defaults
   `get` supplies for the optional fields. The discount, shipping and
   return-policy calls use fixed arguments, not the intent's own.
   */
  function CallFor(intent: Intent): (c: Option<Call>)
    requires WellFormed(intent)
    ensures c.Some? <==> Recognised(intent)
    ensures c.Some? ==> Some(c.value.key) == KeyFor(intent.kind.value)
  {
    var kind := intent.kind.value;
    var item := intent.item.value;
    var rawBudget := intent.budget.GetOr("");
    var code := intent.discountCode.GetOr("");
    var delivery := intent.delivery.GetOr("");
    if kind == "find" then
      Some(Call(SearchKey, Found(SearchProducts(item, None, None, MaxPrice(rawBudget))),
                Searching(item, intent.attributes.GetOr([]), BudgetDigits(rawBudget))))
    else if kind == "discount" then
      Some(Call(DiscountKey, Discounted(ApplyDiscount(AssumedBasePrice, code)), ApplyingDiscount(code, item)))
    else if kind == "shipping" then
      Some(Call(ShippingKey, Shipped(EstimateShipping(AssumedLocation, AssumedDeadline)), EstimatingShipping(item, delivery)))
    else if kind == "prices" then
      Some(Call(ComparisonKey, Compared(ComparePrices(item)), ComparingPrices(item)))
    else if kind == "return_policy" then
      Some(Call(ReturnPolicyKey, PolicyText(GetReturnPolicy(AssumedSeller)), CheckingReturnPolicy(item)))
    else None
  }

  /** One iteration of the dispatch loop. */
  function Step(acc: Trace, intent: Intent): (r: Result<Trace, MissingField>)
    ensures r.Err? <==> !WellFormed(intent)
    ensures r.Err? ==> MissingKey(intent) == Some(r.error)
    ensures r.Ok? && !Recognised(intent) ==> r.value == acc
    ensures r.Ok? && Recognised(intent) ==>
      var key := KeyFor(intent.kind.value).value;
      && Keys(r.value.results) == (if key in Keys(acc.results) then Keys(acc.results) else Keys(acc.results) + [key])
      && (forall k :: k != key ==> Lookup(r.value.results, k) == Lookup(acc.results, k))
      && Lookup(r.value.results, key) == Some(CallFor(intent).value.result)
      && |r.value.thoughts| == |acc.thoughts| + 1
      && r.value.thoughts[..|acc.thoughts|] == acc.thoughts
  {
    match MissingKey(intent)
    case Some(field) => Err(field)
    case None =>
      match CallFor(intent)
      case None => Ok(acc)
      case Some(c) => Ok(Trace(Put(acc.results, c.key, c.result), acc.thoughts + [c.thought]))
  }

  /**
   The dispatch loop over the extracted intents, in order. The first intent
   that lacks `"type"` or `"item"` stops it with a `KeyError`.
   */
  function Dispatch(intents: seq<Intent>): (r: Result<Trace, MissingField>)
    ensures r.Err? <==> exists n :: 0 <= n < |intents| && !WellFormed(intents[n])
    ensures r.Err? ==> exists n :: 0 <= n < |intents| && MissingKey(intents[n]) == Some(r.error)
                                   && forall m :: 0 <= m < n ==> WellFormed(intents[m])
    ensures r.Ok? ==> Distinct(Keys(r.value.results))
    decreases |intents|
  {
    if |intents| == 0 then Ok(Trace([], []))
    else
      var init := intents[..|intents| - 1];
      var last := intents[|intents| - 1];
      assert forall n :: 0 <= n < |init| ==> init[n] == intents[n];
      match Dispatch(init)
      case Err(field) => Err(field)
      case Ok(acc) =>
        assert forall m :: 0 <= m < |init| ==> WellFormed(intents[m]);
        var r := Step(acc, last);
        assert r.Err? ==> MissingKey(intents[|init|]) == Some(r.error);
        assert r.Ok? ==> Distinct(Keys(r.value.results)) by {
          if r.Ok? && Recognised(last) {
            PutKeepsKeysDistinct(acc.results, CallFor(last).value.key, CallFor(last).value.result);
          }
        }
        r
  }

  // ---------------------------------------------------------------------
  // A reference description of the loop's effect on well-formed intents.

  predicate AllWellFormed(intents: seq<Intent>)
  {
    forall n :: 0 <= n < |intents| ==> WellFormed(intents[n])
  }

  /** The calls made, one per recognised intent, in input order. */
  function Calls(intents: seq<Intent>): (cs: seq<Call>)
    requires AllWellFormed(intents)
    ensures |cs| == |Filter(intents, Recognised)|
    ensures forall n :: 0 <= n < |cs| ==>
      Recognised(Filter(intents, Recognised)[n]) && cs[n] == CallFor(Filter(intents, Recognised)[n]).value
    decreases |intents|
  {
    if |intents| == 0 then []
    else
      var init := intents[..|intents| - 1];
      var last := intents[|intents| - 1];
      assert intents == init + [last];
      FilterAppend(init, [last], Recognised);
      match CallFor(last)
      case None => Calls(init)
      case Some(c) => Calls(init) + [c]
  }

  function KeysOf(cs: seq<Call>): (ks: seq<Key>)
    ensures |ks| == |cs|
    ensures forall n :: 0 <= n < |cs| ==> ks[n] == cs[n].key
  {
    seq(|cs|, n requires 0 <= n < |cs| => cs[n].key)
  }

  function ThoughtsOf(cs: seq<Call>): (ts: seq<Thought>)
    ensures |ts| == |cs|
    ensures forall n :: 0 <= n < |cs| ==> ts[n] == cs[n].thought
  {
    seq(|cs|, n requires 0 <= n < |cs| => cs[n].thought)
  }

  /**
   Each key once, in the order of its first occurrence: the order in which a
   dictionary lists keys assigned in the order `ks`.
   */
  function FirstOccurrences(ks: seq<Key>): (r: seq<Key>)
    ensures Distinct(r)
    ensures forall k :: k in r <==> k in ks
    ensures forall i, j :: 0 <= i < j < |r| ==> IndexOf(ks, r[i]) < IndexOf(ks, r[j])
    decreases |ks|
  {
    if |ks| == 0 then []
    else
      var init := ks[..|ks| - 1];
      var last := ks[|ks| - 1];
      var f := FirstOccurrences(init);
      assert ks == init + [last];
      forall k | k in init
        ensures IndexOf(ks, k) == IndexOf(init, k) < |init|
      {
        IndexOfAppend(init, last, k);
      }
      if last in f then f
      else
        assert last !in init;
        assert IndexOf(ks, last) == |init| by {
          assert forall m :: 0 <= m < |init| ==> ks[..|init|][m] == init[m] && init[m] != last;
        }
        f + [last]
  }

  /** The result of the last call that wrote `k`, if any call did. */
  function LastResult(cs: seq<Call>, k: Key): (r: Option<ToolResult>)
    ensures r.None? <==> forall n :: 0 <= n < |cs| ==> cs[n].key != k
    ensures r.Some? ==> exists n :: 0 <= n < |cs| && cs[n].key == k && cs[n].result == r.value
                                    && forall m :: n < m < |cs| ==> cs[m].key != k
    decreases |cs|
  {
    if |cs| == 0 then None
    else if cs[|cs| - 1].key == k then Some(cs[|cs| - 1].result)
    else
      var r := LastResult(cs[..|cs| - 1], k);
      assert forall n :: 0 <= n < |cs| - 1 ==> cs[..|cs| - 1][n] == cs[n];
      r
  }

  lemma FirstOccurrencesSnoc(ks: seq<Key>, x: Key)
    ensures FirstOccurrences(ks + [x]) == if x in ks then FirstOccurrences(ks) else FirstOccurrences(ks) + [x]
  {
    assert (ks + [x])[..|ks|] == ks;
  }

  lemma LastResultSnoc(cs: seq<Call>, c: Call, k: Key)
    ensures LastResult(cs + [c], k) == if c.key == k then Some(c.result) else LastResult(cs, k)
  {
    assert (cs + [c])[..|cs|] == cs;
  }

  lemma CallsSnoc(init: seq<Intent>, last: Intent)
    requires AllWellFormed(init) && WellFormed(last)
    ensures AllWellFormed(init + [last])
    ensures Calls(init + [last]) == if CallFor(last).Some? then Calls(init) + [CallFor(last).value] else Calls(init)
  {
    var intents := init + [last];
    assert intents[..|intents| - 1] == init;
  }

  lemma DispatchSnoc(init: seq<Intent>, last: Intent)
    requires Dispatch(init).Ok?
    ensures Dispatch(init + [last]) == Step(Dispatch(init).value, last)
  {
    assert (init + [last])[..|init|] == init;
  }

  /** The reference relation between a trace and the calls that built it. */
  predicate Describes(t: Trace, cs: seq<Call>)
  {
    && t.thoughts == ThoughtsOf(cs)
    && Keys(t.results) == FirstOccurrences(KeysOf(cs))
    && forall k :: Lookup(t.results, k) == LastResult(cs, k)
  }

  /** Recording one more call keeps the reference relation. */
  lemma RecordKeepsDescription(acc: Trace, cs: seq<Call>, c: Call)
    requires Describes(acc, cs)
    ensures Describes(Trace(Put(acc.results, c.key, c.result), acc.thoughts + [c.thought]), cs + [c])
  {
    RecordKeepsThoughts(cs, c);
    RecordKeepsKeys(acc.results, cs, c);
    RecordKeepsValues(acc.results, cs, c);
  }

  lemma RecordKeepsThoughts(cs: seq<Call>, c: Call)
    ensures ThoughtsOf(cs + [c]) == ThoughtsOf(cs) + [c.thought]
  {
  }

  lemma RecordKeepsKeys(results: Bundle, cs: seq<Call>, c: Call)
    requires Keys(results) == FirstOccurrences(KeysOf(cs))
    ensures Keys(Put(results, c.key, c.result)) == FirstOccurrences(KeysOf(cs + [c]))
  {
    var ks := KeysOf(cs);
    assert KeysOf(cs + [c]) == ks + [c.key];
    FirstOccurrencesSnoc(ks, c.key);
    assert c.key in Keys(results) <==> c.key in ks by {
      FirstOccurrencesMembers(ks, c.key);
    }
  }

  lemma FirstOccurrencesMembers(ks: seq<Key>, k: Key)
    ensures k in FirstOccurrences(ks) <==> k in ks
  {
  }

  lemma RecordKeepsValues(results: Bundle, cs: seq<Call>, c: Call)
    requires forall k :: Lookup(results, k) == LastResult(cs, k)
    ensures forall k :: Lookup(Put(results, c.key, c.result), k) == LastResult(cs + [c], k)
  {
    forall k
      ensures Lookup(Put(results, c.key, c.result), k) == LastResult(cs + [c], k)
    {
      LastResultSnoc(cs, c, k);
    }
  }

  /** One step of the loop keeps the reference relation. */
  lemma StepKeepsDescription(acc: Trace, cs: seq<Call>, last: Intent)
    requires WellFormed(last) && Describes(acc, cs)
    ensures Step(acc, last).Ok?
    ensures Describes(Step(acc, last).value, if CallFor(last).Some? then cs + [CallFor(last).value] else cs)
  {
    var call := CallFor(last);
    if call.Some? {
      RecordKeepsDescription(acc, cs, call.value);
    }
  }

  /**
   On well-formed intents the loop succeeds; the thoughts are one per
   recognised intent in input order; each key appears once, positioned by
   its first write; and each key holds the value of its last write.
   */
  lemma {:induction false} DispatchAgreesWithReference(intents: seq<Intent>)
    requires AllWellFormed(intents)
    ensures Dispatch(intents).Ok?
    ensures Dispatch(intents).value.thoughts == ThoughtsOf(Calls(intents))
    ensures Keys(Dispatch(intents).value.results) == FirstOccurrences(KeysOf(Calls(intents)))
    ensures forall k :: Lookup(Dispatch(intents).value.results, k) == LastResult(Calls(intents), k)
    decreases |intents|
  {
    if |intents| > 0 {
      var init := intents[..|intents| - 1];
      var last := intents[|intents| - 1];
      assert intents == init + [last];
      assert AllWellFormed(init) by {
        assert forall n :: 0 <= n < |init| ==> init[n] == intents[n];
      }
      DispatchAgreesWithReference(init);
      CallsSnoc(init, last);
      DispatchSnoc(init, last);
      StepKeepsDescription(Dispatch(init).value, Calls(init), last);
    }
  }

  /** The phraser's reply, or the fixed apology when the call fails. */
  function Phrase(results: Bundle, userQuery: string, phraser: (Bundle, string) -> Option<string>): (text: string)
    ensures phraser(results, userQuery).Some? ==> text == phraser(results, userQuery).value
    ensures phraser(results, userQuery).None? ==> text == PhrasingApology
  {
    phraser(results, userQuery).GetOr(PhrasingApology)
  }

  /**
   `process_query`. An extraction that failed or produced an empty list
   yields the fixed error text with empty traces; otherwise the intents are
   dispatched, the trace starts with the extraction thought, `actions` holds
   one entry listing the result keys, and the phraser words the results.
   */
  function ProcessQuery(userQuery: string, extracted: Option<seq<Intent>>,
                        phraser: (Bundle, string) -> Option<string>): (o: Outcome)
    ensures (extracted.None? || |extracted.value| == 0) ==> o == Returned(Response([], [], ExtractionErrorMessage))
    ensures o.KeyError? <==> extracted.Some? && exists n :: 0 <= n < |extracted.value| && !WellFormed(extracted.value[n])
    ensures o.Returned? && extracted.Some? && |extracted.value| > 0 ==>
      && |o.response.actions| == 1
      && |o.response.thoughts| >= 1
      && o.response.thoughts[0] == Extracted(extracted.value)
      && Dispatch(extracted.value).Ok?
      && var bundle := Dispatch(extracted.value).value.results;
         && o.response.actions[0] == ExecutedTools(Keys(bundle))
         && (phraser(bundle, userQuery).Some? ==> o.response.finalResponse == phraser(bundle, userQuery).value)
         && (phraser(bundle, userQuery).None? ==> o.response.finalResponse == PhrasingApology)
  {
    match extracted
    case None => Returned(Response([], [], ExtractionErrorMessage))
    case Some(intents) =>
      if |intents| == 0 then Returned(Response([], [], ExtractionErrorMessage))
      else
        match Dispatch(intents)
        case Err(field) => KeyError(field)
        case Ok(t) =>
          Returned(Response([Extracted(intents)] + t.thoughts,
                            [ExecutedTools(Keys(t.results))],
                            Phrase(t.results, userQuery, phraser)))
  }

  /**
   For well-formed intents: one extraction thought, then one thought per
   recognised intent in order; a single action listing each written key
   once, in first-write order; and the phraser's text, or the apology.
   */
  lemma ProcessQueryTrace(userQuery: string, intents: seq<Intent>, phraser: (Bundle, string) -> Option<string>)
    requires |intents| > 0 && AllWellFormed(intents)
    ensures var o := ProcessQuery(userQuery, Some(intents), phraser);
      && o.Returned?
      && o.response.thoughts == [Extracted(intents)] + ThoughtsOf(Calls(intents))
      && |o.response.thoughts| == 1 + |Filter(intents, Recognised)|
      && o.response.actions == [ExecutedTools(FirstOccurrences(KeysOf(Calls(intents))))]
      && var bundle := Dispatch(intents).value.results;
         && Keys(bundle) == FirstOccurrences(KeysOf(Calls(intents)))
         && (forall k :: Lookup(bundle, k) == LastResult(Calls(intents), k))
         && (phraser(bundle, userQuery).Some? ==> o.response.finalResponse == phraser(bundle, userQuery).value)
         && (phraser(bundle, userQuery).None? ==> o.response.finalResponse == PhrasingApology)
  {
    DispatchAgreesWithReference(intents);
  }

  /** The phraser is consulted only when a response is built from results. */
  lemma PhraserOnlyAfterDispatch(userQuery: string, extracted: Option<seq<Intent>>,
                                 p1: (Bundle, string) -> Option<string>, p2: (Bundle, string) -> Option<string>)
    requires ProcessQuery(userQuery, extracted, p1).KeyError? || extracted.None? || |extracted.value| == 0
    ensures ProcessQuery(userQuery, extracted, p1) == ProcessQuery(userQuery, extracted, p2)
  {
  }

  // ---------------------------------------------------------------------
  // The store arguments of each intent type.

  /**
   A `find` intent searches by its budget alone: neither its item nor its
   attributes reach the search, and a budget without a non-zero digit
   sets no ceiling, so the whole catalogue comes back.
   */
  lemma FindSearchesByBudget(intent: Intent)
    requires WellFormed(intent) && intent.kind.value == "find"
    ensures var budget := intent.budget.GetOr("");
      && CallFor(intent).value.key == SearchKey
      && CallFor(intent).value.result == Found(SearchProducts("", None, None, MaxPrice(budget)))
      && ((forall c :: c in budget && IsDigit(c) ==> c == '0') ==>
            CallFor(intent).value.result == Found(Products))
  {
    var budget := intent.budget.GetOr("");
    SearchIgnoresQuery(intent.item.value, "", None, None, MaxPrice(budget));
    NoCeilingIffAllZero(budget);
    if MaxPrice(budget).Some? && MaxPrice(budget).value == 0 {
      ZeroCeilingIsNoCeiling(intent.item.value, None, None);
    }
    NoFiltersReturnsCatalogue(intent.item.value);
  }

  /** A `discount` intent prices the fixed base of 35 with its code, whatever its item. */
  lemma DiscountUsesFixedBase(intent: Intent, otherItem: string)
    requires WellFormed(intent) && intent.kind.value == "discount"
    ensures CallFor(intent).value.key == DiscountKey
    ensures CallFor(intent).value.result.Discounted?
    ensures CallFor(intent).value.result.discount.originalPrice == 35.0
    ensures intent.discountCode == Some("SAVE10") ==> CallFor(intent).value.result.discount.finalPrice == 31.5
    ensures CallFor(intent).value.result == Discounted(ApplyDiscount(AssumedBasePrice, intent.discountCode.GetOr("")))
    ensures CallFor(intent.(item := Some(otherItem))).value.result == CallFor(intent).value.result
  {
  }

  /** A `shipping` intent always gets the express quote: its deadline is fixed at 3 days. */
  lemma ShippingAlwaysExpress(intent: Intent)
    requires WellFormed(intent) && intent.kind.value == "shipping"
    ensures CallFor(intent).value.key == ShippingKey
    ensures CallFor(intent).value.result == Shipped(Quote("express", 15, 2))
  {
  }

  /** A `prices` intent compares the prices of its own item. */
  lemma PricesUseItem(intent: Intent)
    requires WellFormed(intent) && intent.kind.value == "prices"
    ensures CallFor(intent).value.key == ComparisonKey
    ensures CallFor(intent).value.result == Compared(ComparePrices(intent.item.value))
  {
  }

  /** A `return_policy` intent always reports the SiteB policy. */
  lemma ReturnPolicyAlwaysSiteB(intent: Intent)
    requires WellFormed(intent) && intent.kind.value == "return_policy"
    ensures CallFor(intent).value.key == ReturnPolicyKey
    ensures CallFor(intent).value.result == PolicyText("Returns accepted within 14 days. Buyer pays return shipping.")
  {
  }

  /** Two intents of the same type: one key, holding the second value. */
  lemma LaterIntentOverwrites(a: Intent, b: Intent)
    requires Recognised(a) && Recognised(b) && a.kind == b.kind
    ensures Dispatch([a, b]).Ok?
    ensures Keys(Dispatch([a, b]).value.results) == [KeyFor(a.kind.value).value]
    ensures Lookup(Dispatch([a, b]).value.results, KeyFor(a.kind.value).value) == Some(CallFor(b).value.result)
  {
    DispatchSnoc([], a);
    assert [] + [a] == [a];
    DispatchSnoc([a], b);
    assert [a] + [b] == [a, b];
  }
}

=== FILE: common.dfy ===
/**
 Shared building blocks: optional values, results with an error side, the
 order-preserving filter that Python list comprehensions perform, and the
 ASCII part of `str.lower()`.
 */
module Common {

  /** A value that may be absent: a missing dictionary key, a `None`. */
  datatype Option<+T> = None | Some(value: T)
  {
    /** `d.get(key, default)`: the value when present, the default otherwise. */
    function GetOr(default: T): T
    {
      match this
      case Some(v) => v
      case None => default
    }
  }

  /** Either a value or the error that stopped its computation. */
  datatype Result<+T, +E> = Ok(value: T) | Err(error: E)

  /** `r` can be obtained from `s` by deleting elements: the order of `s` is kept. */
  predicate IsSubsequence<T(==)>(r: seq<T>, s: seq<T>)
    decreases |s|
  {
    && |r| <= |s|
    && (|r| == 0
        || (r[0] == s[0] && IsSubsequence(r[1..], s[1..]))
        || IsSubsequence(r, s[1..]))
  }

  /** The position of the first occurrence of `x` in `s`. */
  function IndexOf<T(==)>(s: seq<T>, x: T): (i: nat)
    requires x in s
    ensures i < |s| && s[i] == x && x !in s[..i]
    decreases |s|
  {
    if s[0] == x then 0
    else
      var k := IndexOf(s[1..], x);
      assert s[..k + 1] == [s[0]] + s[1..][..k];
      k + 1
  }

  /** Appending to a sequence does not move the first occurrence of an element already in it. */
  lemma IndexOfAppend<T>(s: seq<T>, y: T, x: T)
    requires x in s
    ensures IndexOf(s + [y], x) == IndexOf(s, x)
  {
    var i := IndexOf(s, x);
    assert (s + [y])[..i] == s[..i];
    var k := IndexOf(s + [y], x);
    assert forall m :: 0 <= m < i ==> s[..i][m] == s[m] && s[m] != x;
    assert forall m :: 0 <= m < k ==> (s + [y])[..k][m] == (s + [y])[m] && (s + [y])[m] != x;
    assert (s + [y])[i] == x;
    assert k < |s| ==> (s + [y])[k] == s[k];
  }

  /** No element occurs twice. */
  predicate Distinct<T(==)>(s: seq<T>)
  {
    forall i, j :: 0 <= i < j < |s| ==> s[i] != s[j]
  }

  /** Appending a new element keeps a sequence free of duplicates. */
  lemma DistinctSnoc<T>(s: seq<T>, x: T)
    requires Distinct(s) && x !in s
    ensures Distinct(s + [x])
  {
    assert forall i :: 0 <= i < |s| ==> (s + [x])[i] == s[i] && s[i] != x;
  }

  /**
   The elements of `s` that satisfy `keep`, in their original order: the
   comprehension `[x for x in s if keep(x)]`.
   */
  function Filter<T(==,!new)>(s: seq<T>, keep: T -> bool): (r: seq<T>)
    ensures |r| <= |s|
    ensures forall x :: x in r <==> x in s && keep(x)
    ensures IsSubsequence(r, s)
    decreases |s|
  {
    if |s| == 0 then []
    else if keep(s[0]) then [s[0]] + Filter(s[1..], keep)
    else Filter(s[1..], keep)
  }

  /**
   Every kept element keeps all its occurrences and every other element has
   none: the filter drops nothing it should keep, repeated elements included.
   */
  lemma {:induction false} FilterCounts<T(!new)>(s: seq<T>, keep: T -> bool)
    ensures forall x :: multiset(Filter(s, keep))[x] == if keep(x) then multiset(s)[x] else 0
    decreases |s|
  {
    if |s| > 0 {
      FilterCounts(s[1..], keep);
      assert s == [s[0]] + s[1..];
      FilterCons(s[0], s[1..], keep);
    }
  }

  /** Two predicates that agree on every element of `s` filter it identically. */
  lemma {:induction false} FilterAgreement<T(!new)>(s: seq<T>, f: T -> bool, g: T -> bool)
    requires forall x :: x in s ==> f(x) == g(x)
    ensures Filter(s, f) == Filter(s, g)
    decreases |s|
  {
    if |s| > 0 {
      assert forall x :: x in s[1..] ==> x in s;
      FilterAgreement(s[1..], f, g);
    }
  }

  /** Filtering a sequence that starts with `x`. */
  lemma FilterCons<T(!new)>(x: T, s: seq<T>, keep: T -> bool)
    ensures Filter([x] + s, keep) == (if keep(x) then [x] else []) + Filter(s, keep)
  {
    assert ([x] + s)[0] == x;
    assert ([x] + s)[1..] == s;
  }

  /** Filtering distributes over concatenation: relative order is kept. */
  lemma {:induction false} FilterAppend<T(!new)>(a: seq<T>, b: seq<T>, keep: T -> bool)
    ensures Filter(a + b, keep) == Filter(a, keep) + Filter(b, keep)
    decreases |a|
  {
    if |a| > 0 {
      FilterAppendStep(a, b, keep);
      FilterAppend(a[1..], b, keep);
      assert Filter(a[1..], keep) + Filter(b, keep) == Filter(a[1..] + b, keep);
    } else {
      assert a + b == b;
    }
  }

  /** One step of `FilterAppend`: peel the first element of `a`. */
  lemma FilterAppendStep<T(!new)>(a: seq<T>, b: seq<T>, keep: T -> bool)
    requires |a| > 0
    ensures var head := if keep(a[0]) then [a[0]] else [];
      && Filter(a + b, keep) == head + Filter(a[1..] + b, keep)
      && Filter(a, keep) == head + Filter(a[1..], keep)
  {
    assert a + b == [a[0]] + (a[1..] + b);
    assert a == [a[0]] + a[1..];
    FilterCons(a[0], a[1..] + b, keep);
    FilterCons(a[0], a[1..], keep);
  }

  /** Filtering with a predicate every element satisfies changes nothing. */
  lemma {:induction false} FilterKeepsAll<T(!new)>(s: seq<T>, keep: T -> bool)
    requires forall x :: x in s ==> keep(x)
    ensures Filter(s, keep) == s
    decreases |s|
  {
    if |s| > 0 {
      assert forall x :: x in s[1..] ==> x in s;
      FilterKeepsAll(s[1..], keep);
      assert [s[0]] + s[1..] == s;
    }
  }

  /** Lower-case an ASCII capital; every other character is left alone. */
  function LowerChar(c: char): (d: char)
    ensures !('A' <= d <= 'Z')
    ensures !('A' <= c <= 'Z') ==> d == c
    ensures 'A' <= c <= 'Z' ==> 'a' <= d <= 'z' && d as int - 'a' as int == c as int - 'A' as int
  {
    if 'A' <= c <= 'Z' then (c as int - 'A' as int + 'a' as int) as char else c
  }

  /** `s.lower()` restricted to the ASCII alphabet. */
  function Lower(s: string): (r: string)
    ensures |r| == |s|
    ensures forall i :: 0 <= i < |r| ==> !('A' <= r[i] <= 'Z')
    ensures forall i :: 0 <= i < |s| && !('A' <= s[i] <= 'Z') ==> r[i] == s[i]
  {
    seq(|s|, i requires 0 <= i < |s| => LowerChar(s[i]))
  }
}

/**
 An association list with the semantics of a Python `dict`: keys are unique,
 iteration follows first insertion, and assigning to an existing key replaces
 its value without moving it.
 */
module Assoc {
  import opened Common

  /** The keys in iteration order: `list(d.keys())`. */
  function Keys<K, V>(m: seq<(K, V)>): (ks: seq<K>)
    ensures |ks| == |m|
    ensures forall i :: 0 <= i < |m| ==> ks[i] == m[i].0
    decreases |m|
  {
    if |m| == 0 then [] else [m[0].0] + Keys(m[1..])
  }

  /** `d.get(k)`: the value stored under `k`, if any. */
  function Lookup<K(==), V>(m: seq<(K, V)>, k: K): (r: Option<V>)
    ensures r.None? <==> k !in Keys(m)
    ensures r.Some? ==> (k, r.value) in m
    decreases |m|
  {
    if |m| == 0 then None
    else if m[0].0 == k then Some(m[0].1)
    else Lookup(m[1..], k)
  }

  /** `d[k] = v`. */
  function Put<K(==,!new), V>(m: seq<(K, V)>, k: K, v: V): (r: seq<(K, V)>)
    ensures Keys(r) == if k in Keys(m) then Keys(m) else Keys(m) + [k]
    ensures Lookup(r, k) == Some(v)
    ensures forall j :: j != k ==> Lookup(r, j) == Lookup(m, j)
    decreases |m|
  {
    if |m| == 0 then [(k, v)]
    else if m[0].0 == k then
      PutHere(m, k, v);
      [(k, v)] + m[1..]
    else
      var rest := Put(m[1..], k, v);
      PutLater(m, k, v, rest);
      [m[0]] + rest
  }

  /** `Keys` of a list with one more entry in front. */
  lemma ConsKeys<K, V>(p: (K, V), t: seq<(K, V)>)
    ensures Keys([p] + t) == [p.0] + Keys(t)
  {
    assert ([p] + t)[1..] == t;
  }

  /** `Lookup` in a list with one more entry in front. */
  lemma ConsLookup<K, V>(p: (K, V), t: seq<(K, V)>, j: K)
    ensures Lookup([p] + t, j) == if p.0 == j then Some(p.1) else Lookup(t, j)
  {
    assert ([p] + t)[0] == p;
    assert ([p] + t)[1..] == t;
  }

  /** Assignment to the first key replaces its value in place. */
  lemma PutHere<K, V>(m: seq<(K, V)>, k: K, v: V)
    requires |m| > 0 && m[0].0 == k
    ensures Keys([(k, v)] + m[1..]) == Keys(m)
    ensures Lookup([(k, v)] + m[1..], k) == Some(v)
    ensures forall j :: j != k ==> Lookup([(k, v)] + m[1..], j) == Lookup(m, j)
  {
    assert m == [m[0]] + m[1..];
    ConsKeys(m[0], m[1..]);
    ConsKeys((k, v), m[1..]);
    ConsLookup((k, v), m[1..], k);
    forall j | j != k
      ensures Lookup([(k, v)] + m[1..], j) == Lookup(m, j)
    {
      ConsLookup((k, v), m[1..], j);
      ConsLookup(m[0], m[1..], j);
    }
  }

  /** Assignment to a later key keeps the first entry and assigns in the rest. */
  lemma PutLater<K, V>(m: seq<(K, V)>, k: K, v: V, rest: seq<(K, V)>)
    requires |m| > 0 && m[0].0 != k
    requires Keys(rest) == if k in Keys(m[1..]) then Keys(m[1..]) else Keys(m[1..]) + [k]
    requires Lookup(rest, k) == Some(v)
    requires forall j :: j != k ==> Lookup(rest, j) == Lookup(m[1..], j)
    ensures Keys([m[0]] + rest) == if k in Keys(m) then Keys(m) else Keys(m) + [k]
    ensures Lookup([m[0]] + rest, k) == Some(v)
    ensures forall j :: j != k ==> Lookup([m[0]] + rest, j) == Lookup(m, j)
  {
    PutLaterKeys(m, k, Keys(rest));
    ConsKeys(m[0], rest);
    ConsLookup(m[0], rest, k);
    PutLaterFrame(m, k, rest);
  }

  lemma PutLaterFrame<K, V>(m: seq<(K, V)>, k: K, rest: seq<(K, V)>)
    requires |m| > 0
    requires forall j :: j != k ==> Lookup(rest, j) == Lookup(m[1..], j)
    ensures forall j :: j != k ==> Lookup([m[0]] + rest, j) == Lookup(m, j)
  {
    assert m == [m[0]] + m[1..];
    forall j | j != k
      ensures Lookup([m[0]] + rest, j) == Lookup(m, j)
    {
      ConsLookup(m[0], rest, j);
      ConsLookup(m[0], m[1..], j);
    }
  }

  lemma PutLaterKeys<K, V>(m: seq<(K, V)>, k: K, ks: seq<K>)
    requires |m| > 0 && m[0].0 != k
    requires ks == if k in Keys(m[1..]) then Keys(m[1..]) else Keys(m[1..]) + [k]
    ensures [m[0].0] + ks == if k in Keys(m) then Keys(m) else Keys(m) + [k]
  {
    assert m == [m[0]] + m[1..];
    ConsKeys(m[0], m[1..]);
    assert k in Keys(m) <==> k in Keys(m[1..]);
    assert [m[0].0] + (Keys(m[1..]) + [k]) == ([m[0].0] + Keys(m[1..])) + [k];
  }

  /** Assignment never introduces a duplicate key. */
  lemma PutKeepsKeysDistinct<K(!new), V>(m: seq<(K, V)>, k: K, v: V)
    requires Distinct(Keys(m))
    ensures Distinct(Keys(Put(m, k, v)))
  {
    var ks := Keys(m);
    var after := Keys(Put(m, k, v));
    if k !in ks {
      DistinctSnoc(ks, k);
      assert after == ks + [k];
    } else {
      assert after == ks;
    }
  }
}

=== FILE: extraction.dfy ===
/**
 The deterministic text handling around intent extraction (agent.py): the
 slice that cuts a JSON array out of the model's reply, and the rule that
 turns a free-text budget into a price ceiling.
 */
module Extraction {
  import opened Common

  /** `s.find(c)`: the index of the first `c`, or -1 when there is none. */
  function Find(s: string, c: char): (i: int)
    ensures -1 <= i < |s|
    ensures i == -1 <==> c !in s
    ensures i >= 0 ==> s[i] == c && c !in s[..i]
    decreases |s|
  {
    if |s| == 0 then -1
    else if s[0] == c then 0
    else
      var k := Find(s[1..], c);
      if k == -1 then -1
      else
        assert s[..k + 1] == [s[0]] + s[1..][..k];
        k + 1
  }

  /** `s.rfind(c)`: the index of the last `c`, or -1 when there is none. */
  function RFind(s: string, c: char): (i: int)
    ensures -1 <= i < |s|
    ensures i == -1 <==> c !in s
    ensures i >= 0 ==> s[i] == c && c !in s[i + 1..]
    decreases |s|
  {
    if |s| == 0 then -1
    else if s[|s| - 1] == c then |s| - 1
    else
      var k := RFind(s[..|s| - 1], c);
      assert s == s[..|s| - 1] + [s[|s| - 1]];
      k
  }

  /** Python's `s[a:b]` for non-negative bounds: both are clamped, and the slice is empty once `a >= b`. */
  function Slice(s: string, a: nat, b: nat): (r: string)
    ensures |r| <= |s|
    ensures a >= b ==> r == []
    ensures a < b <= |s| ==> r == s[a..b]
  {
    var lo := if a < |s| then a else |s|;
    var hi := if b < |s| then b else |s|;
    if lo >= hi then [] else s[lo..hi]
  }

  /**
   The cut applied to the extraction reply before decoding: from the first
   `[` to the last `]`, inclusive. Since `rfind(...) + 1` is never -1 the
   second half of the guard always holds, so only a missing `[` leaves the
   text whole; a reply with no `]` after its first `[` is cut to nothing.
   */
  function BracketSlice(content: string): (r: string)
    ensures '[' !in content ==> r == content
    ensures '[' in content ==> r == [] || (r[0] == '[' && r[|r| - 1] == ']')
  {
    var start := Find(content, '[');
    var end := RFind(content, ']') + 1;
    if start != -1 && end != -1 then Slice(content, start, end) else content
  }

  /** The closing bound of the slice is never -1, whatever the text. */
  lemma EndGuardAlwaysHolds(content: string)
    ensures RFind(content, ']') + 1 != -1
    ensures BracketSlice(content) == if '[' in content then Slice(content, Find(content, '['), RFind(content, ']') + 1) else content
  {
    var start := Find(content, '[');
    assert start == -1 <==> '[' !in content;
  }

  /**
   When `i` is the first `[` and `j` the last `]`, and `j` comes later, the
   result is exactly the text between them, brackets included.
   */
  lemma BracketSliceBetween(content: string, i: nat, j: nat)
    requires i < j < |content|
    requires content[i] == '[' && '[' !in content[..i]
    requires content[j] == ']' && ']' !in content[j + 1..]
    ensures BracketSlice(content) == content[i..j + 1]
  {
    FirstIsUnique(content, '[', i, Find(content, '['));
    LastIsUnique(content, ']', j, RFind(content, ']'));
  }

  /** When no `]` follows the first `[` (none at all, or only earlier ones), the result is empty. */
  lemma BracketSliceEmpty(content: string, i: nat)
    requires i < |content|
    requires content[i] == '[' && '[' !in content[..i]
    requires ']' !in content[i..]
    ensures BracketSlice(content) == []
  {
    FirstIsUnique(content, '[', i, Find(content, '['));
    assert forall m :: i <= m < |content| ==> content[i..][m - i] == content[m] && content[m] != ']';
  }

  lemma FirstIsUnique(s: string, c: char, i: nat, k: int)
    requires i < |s| && s[i] == c && c !in s[..i]
    requires 0 <= k < |s| && s[k] == c && c !in s[..k]
    ensures i == k
  {
    assert forall m :: 0 <= m < k ==> s[..k][m] == s[m] && s[m] != c;
    assert forall m :: 0 <= m < i ==> s[..i][m] == s[m] && s[m] != c;
  }

  lemma LastIsUnique(s: string, c: char, j: nat, k: int)
    requires j < |s| && s[j] == c && c !in s[j + 1..]
    requires 0 <= k < |s| && s[k] == c && c !in s[k + 1..]
    ensures j == k
  {
    assert forall m :: j < m < |s| ==> s[j + 1..][m - j - 1] == s[m] && s[m] != c;
    assert forall m :: k < m < |s| ==> s[k + 1..][m - k - 1] == s[m] && s[m] != c;
  }

  /**
   Decoding the reply: a transport failure yields nothing; otherwise the
   JSON decoder (a parameter, as the model's reply format is outside this
   model) sees the bracket slice of the reply.
   */
  function ParseQuery<T>(reply: Option<string>, decode: string -> Option<T>): (r: Option<T>)
    ensures reply.None? ==> r.None?
    ensures reply.Some? && '[' !in reply.value ==> r == decode(reply.value)
    ensures reply.Some? ==> r == decode(BracketSlice(reply.value))
  {
    match reply
    case None => None
    case Some(content) => decode(BracketSlice(content))
  }

  /** A decimal digit, as the budget's digit pattern matches it. */
  predicate IsDigit(c: char)
  {
    '0' <= c <= '9'
  }

  /** The budget's decimal digits joined into one string, in their order. */
  function BudgetDigits(budget: string): (d: string)
    ensures forall c :: c in d <==> c in budget && IsDigit(c)
    ensures forall c :: multiset(d)[c] == if IsDigit(c) then multiset(budget)[c] else 0
    ensures IsSubsequence(d, budget)
  {
    FilterCounts(budget, IsDigit);
    Filter(budget, IsDigit)
  }

  /**
   The digits of a budget are found piece by piece: those of a concatenation
   are those of the first part followed by those of the second, and a single
   character contributes itself exactly when it is a digit.
   */
  lemma BudgetDigitsAppend(a: string, b: string)
    ensures BudgetDigits(a + b) == BudgetDigits(a) + BudgetDigits(b)
    ensures |a| == 1 ==> BudgetDigits(a) == if IsDigit(a[0]) then a else []
  {
    FilterAppend(a, b, IsDigit);
    if |a| == 1 {
      assert a == [a[0]] + [];
      FilterCons(a[0], [], IsDigit);
    }
  }

  /** `10^n`. */
  function Pow10(n: nat): (p: nat)
    ensures p >= 1
  {
    if n == 0 then 1 else 10 * Pow10(n - 1)
  }

  /** `int(d)` for a string of decimal digits, leading zeros allowed; `MaxPrice` never passes the empty string. */
  function DigitsValue(d: string): (n: nat)
    requires forall c :: c in d ==> IsDigit(c)
    ensures n < Pow10(|d|)
    decreases |d|
  {
    if |d| == 0 then 0
    else
      assert forall c :: c in d[..|d| - 1] ==> c in d;
      assert d[|d| - 1] in d;
      assert IsDigit(d[|d| - 1]);
      DigitsValue(d[..|d| - 1]) * 10 + (d[|d| - 1] as int - '0' as int)
  }

  /** A digit string denotes zero exactly when every digit is `0`. */
  lemma {:induction false} DigitsValueZero(d: string)
    requires forall c :: c in d ==> IsDigit(c)
    ensures DigitsValue(d) == 0 <==> forall c :: c in d ==> c == '0'
    decreases |d|
  {
    if |d| > 0 {
      var init := d[..|d| - 1];
      assert forall c :: c in init ==> c in d;
      DigitsValueZero(init);
      assert d == init + [d[|d| - 1]];
      assert d[|d| - 1] in d;
      assert forall c :: c in d <==> c in init || c == d[|d| - 1];
    }
  }

  /**
   Positional notation: the value of `a + b` is the value of `a` shifted by
   the length of `b`, plus the value of `b`.
   */
  lemma {:induction false} DigitsValueAppend(a: string, b: string)
    requires forall c :: c in a ==> IsDigit(c)
    requires forall c :: c in b ==> IsDigit(c)
    ensures forall c :: c in a + b ==> IsDigit(c)
    ensures DigitsValue(a + b) == DigitsValue(a) * Pow10(|b|) + DigitsValue(b)
    decreases |b|
  {
    AllDigitsAppend(a, b);
    if |b| > 0 {
      var init, last := b[..|b| - 1], b[|b| - 1];
      assert b == init + [last];
      AllDigitsSplit(init, last);
      DigitsValueAppend(a, init);
      assert a + b == (a + init) + [last];
      DigitsValueSnoc(a + init, last);
      DigitsValueSnoc(init, last);
      ShiftStep(DigitsValue(a), DigitsValue(init), Pow10(|init|), last as int - '0' as int);
    } else {
      assert a + b == a;
    }
  }

  lemma AllDigitsAppend(a: string, b: string)
    requires forall c :: c in a ==> IsDigit(c)
    requires forall c :: c in b ==> IsDigit(c)
    ensures forall c :: c in a + b ==> IsDigit(c)
  {
    assert forall c :: c in a + b ==> c in a || c in b;
  }

  lemma AllDigitsSplit(init: string, last: char)
    requires forall c :: c in init + [last] ==> IsDigit(c)
    ensures forall c :: c in init ==> IsDigit(c)
    ensures IsDigit(last)
  {
    assert forall c :: c in init ==> c in init + [last];
    assert last in init + [last];
  }

  /** Appending one digit multiplies by ten and adds the digit. */
  lemma DigitsValueSnoc(d: string, c: char)
    requires forall x :: x in d ==> IsDigit(x)
    requires IsDigit(c)
    ensures forall x :: x in d + [c] ==> IsDigit(x)
    ensures DigitsValue(d + [c]) == DigitsValue(d) * 10 + (c as int - '0' as int)
  {
    assert forall x :: x in d + [c] ==> x in d || x == c;
    assert (d + [c])[..|d|] == d;
  }

  lemma ShiftStep(x: int, y: int, p: int, v: int)
    ensures (x * p + y) * 10 + v == x * (10 * p) + (y * 10 + v)
  {
  }

  /** Leading zeros do not change the value. */
  lemma {:induction false} DigitsValueLeadingZero(d: string)
    requires forall c :: c in d ==> IsDigit(c)
    ensures DigitsValue(['0'] + d) == DigitsValue(d)
    decreases |d|
  {
    if |d| > 0 {
      var init := d[..|d| - 1];
      assert forall c :: c in init ==> c in d;
      DigitsValueLeadingZero(init);
      assert (['0'] + d)[..|d|] == ['0'] + init;
    }
  }

  /**
   The `max_price` the dispatcher passes to the search: `None` when the
   budget has no digit, `int` of its digits otherwise.
   */
  function MaxPrice(budget: string): (m: Option<int>)
    ensures m.None? <==> forall c :: c in budget ==> !IsDigit(c)
    ensures m.Some? ==> m.value >= 0
    ensures m.Some? ==> forall c :: c in BudgetDigits(budget) ==> IsDigit(c)
    ensures m.Some? ==> m.value == DigitsValue(BudgetDigits(budget))
  {
    var d := BudgetDigits(budget);
    assert |d| > 0 ==> d[0] in d;
    if |d| == 0 then None else Some(DigitsValue(d))
  }

  /**
   The budget imposes no price ceiling (its `max_price` is falsy) exactly
   when every digit in it is `0`; a budget without digits counts too.
   */
  lemma NoCeilingIffAllZero(budget: string)
    ensures var m := MaxPrice(budget);
      (m.None? || m.value == 0) <==> forall c :: c in budget && IsDigit(c) ==> c == '0'
  {
    var d := BudgetDigits(budget);
    DigitsValueZero(d);
  }

  /**
   A budget whose digits form one run `d`, with only non-digits around it
   (a currency sign, words), gets `int(d)` as its ceiling.
   */
  lemma MaxPriceOfDigitRun(pre: string, d: string, post: string)
    requires forall c :: c in pre ==> !IsDigit(c)
    requires forall c :: c in post ==> !IsDigit(c)
    requires |d| > 0 && forall c :: c in d ==> IsDigit(c)
    ensures MaxPrice(pre + d + post) == Some(DigitsValue(d))
  {
    DigitRun(pre, d, post);
  }

  lemma DigitRun(pre: string, d: string, post: string)
    requires forall c :: c in pre ==> !IsDigit(c)
    requires forall c :: c in post ==> !IsDigit(c)
    requires forall c :: c in d ==> IsDigit(c)
    ensures BudgetDigits(pre + d + post) == d
  {
    calc {
      BudgetDigits(pre + d + post);
      { FilterAppend(pre + d, post, IsDigit); }
      BudgetDigits(pre + d) + BudgetDigits(post);
      { FilterAppend(pre, d, IsDigit); }
      BudgetDigits(pre) + BudgetDigits(d) + BudgetDigits(post);
      { NoDigits(pre); NoDigits(post); FilterKeepsAll(d, IsDigit); }
      [] + d + [];
      d;
    }
  }

  /** Text without a digit contributes no digits. */
  lemma NoDigits(s: string)
    requires forall c :: c in s ==> !IsDigit(c)
    ensures BudgetDigits(s) == []
  {
    var r := BudgetDigits(s);
    assert forall i :: 0 <= i < |r| ==> r[i] in r;
  }

  /** The worked example: "under $150" becomes a ceiling of 150. */
  lemma BudgetExample()
    ensures MaxPrice("under $150") == Some(150)
  {
    ExamplePieces();
    MaxPriceOfDigitRun("under $", "150", "");
    ExampleJoin();
    ExampleValue();
  }

  lemma ExamplePieces()
    ensures forall c :: c in "under $" ==> !IsDigit(c)
    ensures forall c :: c in "150" ==> IsDigit(c)
  {
  }

  lemma ExampleJoin()
    ensures "under $" + "150" + "" == "under $150"
  {
  }

  lemma ExampleValue()
    ensures DigitsValue("150") == 150
  {
    assert "150"[..2] == "15" && "15"[..1] == "1" && "1"[..0] == "";
  }
}

=== FILE: tools.dfy ===
/**
 The mock store of the shopping assistant: five pure functions over constant
 tables (tools.py). Every table is a constant; nothing here changes state.
 */

/** The product catalogue and its attribute search (`search_products`). */
module Catalog {
  import opened Common

  datatype Product = Product(name: string, price: int, color: string, size: string, inStock: bool)

  /** The ten seeded catalogue entries, in their declared order. */
  const Products: seq<Product> := [
    Product("Floral Skirt", 35, "red", "S", true),
    Product("Casual Denim Jacket", 80, "blue", "M", true),
    Product("White Sneakers", 65, "white", "8", false),
    Product("Leather Jacket", 140, "black", "L", true),
    Product("Running Shoes", 120, "gray", "10", true),
    Product("Graphic T-Shirt", 25, "yellow", "M", false),
    Product("Formal Trousers", 50, "navy", "32", true),
    Product("Sunglasses", 90, "black", "One Size", true),
    Product("Backpack", 60, "green", "Medium", false),
    Product("Winter Coat", 110, "gray", "XL", true)
  ]

  /** A string filter is switched off when it is falsy: `None` or the empty string. */
  predicate FilterOff(f: Option<string>)
  {
    f.None? || f.value == ""
  }

  /** A price ceiling is switched off when it is falsy: `None` or zero. */
  predicate NoCeiling(maxPrice: Option<int>)
  {
    maxPrice.None? || maxPrice.value == 0
  }

  /** Case-insensitive equality of an attribute with a filter value. */
  predicate SameIgnoringCase(a: string, b: string)
  {
    Lower(a) == Lower(b)
  }

  /** The three conjunctive search conditions; the stock flag takes no part. */
  predicate Matches(p: Product, color: Option<string>, size: Option<string>, maxPrice: Option<int>)
  {
    && (FilterOff(color) || SameIgnoringCase(p.color, color.value))
    && (FilterOff(size) || SameIgnoringCase(p.size, size.value))
    && (NoCeiling(maxPrice) || p.price <= maxPrice.value)
  }

  /**
   `search_products`: the catalogue entries meeting every active filter, in
   catalogue order. The free-text `query` is accepted and ignored.
   */
  function SearchProducts(query: string, color: Option<string>, size: Option<string>, maxPrice: Option<int>)
    : (r: seq<Product>)
    ensures forall p :: p in r <==> p in Products && Matches(p, color, size, maxPrice)
    ensures IsSubsequence(r, Products)
    ensures !NoCeiling(maxPrice) ==> forall p :: p in r ==> p.price <= maxPrice.value
  {
    Filter(Products, p => Matches(p, color, size, maxPrice))
  }

  /** The query text never influences the result. */
  lemma SearchIgnoresQuery(q1: string, q2: string, color: Option<string>, size: Option<string>, maxPrice: Option<int>)
    ensures SearchProducts(q1, color, size, maxPrice) == SearchProducts(q2, color, size, maxPrice)
  {
  }

  /** A ceiling of 0 is falsy, so it filters exactly as no ceiling at all. */
  lemma ZeroCeilingIsNoCeiling(query: string, color: Option<string>, size: Option<string>)
    ensures SearchProducts(query, color, size, Some(0)) == SearchProducts(query, color, size, None)
  {
    FilterAgreement(Products, p => Matches(p, color, size, Some(0)), p => Matches(p, color, size, None));
  }

  /** An empty colour or size string filters exactly as an absent one, whatever the other filters. */
  lemma EmptyFilterIsNoFilter(query: string, color: Option<string>, size: Option<string>, maxPrice: Option<int>)
    ensures SearchProducts(query, Some(""), size, maxPrice) == SearchProducts(query, None, size, maxPrice)
    ensures SearchProducts(query, color, Some(""), maxPrice) == SearchProducts(query, color, None, maxPrice)
  {
    FilterAgreement(Products, p => Matches(p, Some(""), size, maxPrice), p => Matches(p, None, size, maxPrice));
    FilterAgreement(Products, p => Matches(p, color, Some(""), maxPrice), p => Matches(p, color, None, maxPrice));
  }

  /** Filter values that differ only in letter case give the same result. */
  lemma SearchIgnoresCase(query: string, c1: string, c2: string, s1: string, s2: string, maxPrice: Option<int>)
    requires Lower(c1) == Lower(c2) && Lower(s1) == Lower(s2)
    ensures SearchProducts(query, Some(c1), Some(s1), maxPrice) == SearchProducts(query, Some(c2), Some(s2), maxPrice)
  {
    assert |c1| == |Lower(c1)| == |Lower(c2)| == |c2|;
    assert |s1| == |Lower(s1)| == |Lower(s2)| == |s2|;
    assert forall p :: Matches(p, Some(c1), Some(s1), maxPrice) == Matches(p, Some(c2), Some(s2), maxPrice);
    FilterAgreement(Products, p => Matches(p, Some(c1), Some(s1), maxPrice), p => Matches(p, Some(c2), Some(s2), maxPrice));
  }

  /**
   Without filters the whole catalogue comes back, out-of-stock entries
   included: the stock flag never filters.
   */
  lemma NoFiltersReturnsCatalogue(query: string)
    ensures SearchProducts(query, None, None, None) == Products
    ensures exists p :: p in SearchProducts(query, None, None, None) && !p.inStock
  {
    FilterKeepsAll(Products, p => Matches(p, None, None, None));
    assert !Products[2].inStock;
  }
}

/** The shipping estimator (`estimate_shipping`). */
module Shipping {
  datatype Rate = Rate(cost: int, days: int)

  /** The shipping methods in their declared order, slowest first. */
  const Options: seq<(string, Rate)> := [
    ("standard", Rate(5, 5)),
    ("express", Rate(15, 2)),
    ("overnight", Rate(25, 1))
  ]

  const NotPossibleMessage: string := "Delivery not possible within the requested deadline."

  /** A chosen method with its cost and days, or the error record. */
  datatype Estimate = Quote(methodName: string, cost: int, days: int) | NotPossible(error: string)

  /** Option `i` is the first one, in table order, that meets the deadline. */
  predicate FirstWithin(options: seq<(string, Rate)>, deadline: int, i: int)
  {
    && 0 <= i < |options|
    && options[i].1.days <= deadline
    && forall j :: 0 <= j < i ==> options[j].1.days > deadline
  }

  /** First-match selection over an ordered table of methods. */
  function Select(options: seq<(string, Rate)>, deadline: int): (r: Estimate)
    ensures r.NotPossible? <==> forall i :: 0 <= i < |options| ==> options[i].1.days > deadline
    ensures r.NotPossible? ==> r.error == NotPossibleMessage
    ensures r.Quote? ==> exists i :: FirstWithin(options, deadline, i)
                                     && r == Quote(options[i].0, options[i].1.cost, options[i].1.days)
    decreases |options|
  {
    if |options| == 0 then NotPossible(NotPossibleMessage)
    else if options[0].1.days <= deadline then Quote(options[0].0, options[0].1.cost, options[0].1.days)
    else
      var r := Select(options[1..], deadline);
      assert r.Quote? ==> exists i :: FirstWithin(options[1..], deadline, i)
                                      && r == Quote(options[1..][i].0, options[1..][i].1.cost, options[1..][i].1.days);
      assert forall i :: FirstWithin(options[1..], deadline, i) ==> FirstWithin(options, deadline, i + 1);
      r
  }

  /**
   `estimate_shipping`: the first of standard, express, overnight whose days
   fit the deadline. The location is accepted and ignored.
   */
  function EstimateShipping(location: string, deadline: int): (r: Estimate)
    ensures deadline >= 5 ==> r == Quote("standard", 5, 5)
    ensures 2 <= deadline < 5 ==> r == Quote("express", 15, 2)
    ensures deadline == 1 ==> r == Quote("overnight", 25, 1)
    ensures r.NotPossible? <==> deadline < 1
    ensures r.NotPossible? ==> r.error == NotPossibleMessage
  {
    Select(Options, deadline)
  }

  /**
   The quote always meets the deadline and, because the table is sorted from
   slow to fast, it is also the cheapest option that does.
   */
  lemma QuoteIsCheapestWithinDeadline(location: string, deadline: int)
    ensures var r := EstimateShipping(location, deadline);
      r.Quote? ==>
        && r.days <= deadline
        && forall i :: 0 <= i < |Options| && Options[i].1.days <= deadline ==> r.cost <= Options[i].1.cost
  {
  }

  /** The location never influences the estimate. */
  lemma EstimateIgnoresLocation(l1: string, l2: string, deadline: int)
    ensures EstimateShipping(l1, deadline) == EstimateShipping(l2, deadline)
  {
  }
}

/** The promotion-code checker (`apply_discount`). */
module Promo {
  import opened Common
  import opened Assoc

  /** The valid codes and their rates. */
  const Codes: seq<(string, real)> := [
    ("SAVE10", 0.1),
    ("FASHION20", 0.2),
    ("FREESHIP", 0.0),
    ("WELCOME15", 0.15)
  ]

  datatype Discount = Discount(originalPrice: real, discountApplied: real, finalPrice: real)

  /** The rate of a valid code, and 0 for any other code. */
  function RateOf(code: string): (rate: real)
    ensures rate in {0.0, 0.1, 0.15, 0.2}
    ensures code !in Keys(Codes) ==> rate == 0.0
  {
    match Lookup(Codes, code)
    case Some(rate) => rate
    case None => 0.0
  }

  /** `apply_discount`: the price breakdown for a base price and a code. */
  function ApplyDiscount(basePrice: real, promoCode: string): (r: Discount)
    ensures r.originalPrice == basePrice
    ensures r.discountApplied in {0.0, 0.1, 0.15, 0.2}
    ensures r.finalPrice == basePrice * (1.0 - r.discountApplied)
    ensures promoCode !in Keys(Codes) ==> r.discountApplied == 0.0 && r.finalPrice == basePrice
    ensures basePrice >= 0.0 ==> 0.0 <= r.finalPrice <= basePrice
  {
    var rate := RateOf(promoCode);
    ScaleWithin(basePrice, rate);
    Discount(basePrice, rate, basePrice * (1.0 - rate))
  }

  /** Taking a fraction between 0 and 1 off a non-negative price keeps it between 0 and the price. */
  lemma ScaleWithin(price: real, rate: real)
    requires 0.0 <= rate <= 1.0
    ensures price >= 0.0 ==> 0.0 <= price * (1.0 - rate) <= price
  {
    if price >= 0.0 {
      assert price * (1.0 - rate) == price - price * rate;
      assert 0.0 <= price * rate <= price;
    }
  }

  /** Each known code applies its own rate; lookup is case-sensitive. */
  lemma KnownCodes(basePrice: real)
    ensures ApplyDiscount(basePrice, "SAVE10").finalPrice == basePrice * 0.9
    ensures ApplyDiscount(basePrice, "FASHION20").finalPrice == basePrice * 0.8
    ensures ApplyDiscount(basePrice, "WELCOME15").finalPrice == basePrice * 0.85
    ensures ApplyDiscount(basePrice, "FREESHIP").finalPrice == basePrice
    ensures ApplyDiscount(basePrice, "save10").finalPrice == basePrice
  {
    KnownRates();
  }

  /** Every listed code gets its own rate. */
  lemma RateOfReadsTable(i: nat)
    requires i < |Codes|
    ensures RateOf(Codes[i].0) == Codes[i].1
  {
    var code := Codes[i].0;
    assert Distinct(Keys(Codes));
    var r := Lookup(Codes, code);
    assert (code, r.value) in Codes;
    var j :| 0 <= j < |Codes| && Codes[j] == (code, r.value);
    assert Keys(Codes)[i] == Keys(Codes)[j];
  }

  lemma KnownRates()
    ensures RateOf("SAVE10") == 0.1 && RateOf("FASHION20") == 0.2
    ensures RateOf("WELCOME15") == 0.15 && RateOf("FREESHIP") == 0.0
    ensures RateOf("save10") == 0.0
  {
    RateOfReadsTable(0);
    RateOfReadsTable(1);
    RateOfReadsTable(2);
    RateOfReadsTable(3);
    assert "save10" !in Keys(Codes);
  }
}

/** The competitor price table (`compare_prices`). */
module Pricing {
  import opened Common
  import opened Assoc

  /** Per-product seller prices, sellers in declared order. */
  const Competitors: seq<(string, seq<(string, int)>)> := [
    ("Casual Denim Jacket", [("SiteA", 80), ("SiteB", 75), ("SiteC", 85), ("SiteD", 78)]),
    ("White Sneakers", [("SiteA", 70), ("SiteB", 65), ("SiteC", 68), ("SiteD", 72)]),
    ("Leather Jacket", [("SiteA", 145), ("SiteB", 140), ("SiteC", 135), ("SiteD", 138)]),
    ("Running Shoes", [("SiteA", 125), ("SiteB", 118), ("SiteC", 122), ("SiteD", 119)])
  ]

  const NotFoundMessage: string := "Product not found in competitor stores."

  const Sellers: seq<string> := ["SiteA", "SiteB", "SiteC", "SiteD"]

  datatype Comparison = Prices(bySeller: seq<(string, int)>) | NotFound(error: string)

  /**
   `compare_prices`: the seller-price map of a product named exactly as in
   the table, or the error record.
   */
  function ComparePrices(productName: string): (r: Comparison)
    ensures r.Prices? <==> productName in {"Casual Denim Jacket", "White Sneakers", "Leather Jacket", "Running Shoes"}
    ensures r.NotFound? ==> r.error == NotFoundMessage
    ensures r.Prices? ==> Keys(r.bySeller) == Sellers
    ensures r.Prices? ==> (productName, r.bySeller) in Competitors
  {
    match Lookup(Competitors, productName)
    case Some(prices) => Prices(prices)
    case None => NotFound(NotFoundMessage)
  }

  /** Every seeded product gets its own row of the table back. */
  lemma ComparePricesReadsTable(i: nat)
    requires i < |Competitors|
    ensures ComparePrices(Competitors[i].0) == Prices(Competitors[i].1)
  {
    var name := Competitors[i].0;
    assert Distinct(Keys(Competitors));
    var r := ComparePrices(name);
    assert (name, r.bySeller) in Competitors;
    var j :| 0 <= j < |Competitors| && Competitors[j] == (name, r.bySeller);
    assert Keys(Competitors)[i] == Keys(Competitors)[j];
  }

  /** The seeded prices for one product; a differently cased name is unknown. */
  lemma LeatherJacketPrices()
    ensures ComparePrices("Leather Jacket") == Prices([("SiteA", 145), ("SiteB", 140), ("SiteC", 135), ("SiteD", 138)])
    ensures ComparePrices("leather jacket") == NotFound(NotFoundMessage)
  {
  }
}

/** The seller return-policy table (`get_return_policy`). */
module Policy {
  import opened Common
  import opened Assoc

  const Policies: seq<(string, string)> := [
    ("SiteA", "Returns accepted within 30 days. Free return shipping."),
    ("SiteB", "Returns accepted within 14 days. Buyer pays return shipping."),
    ("SiteC", "No returns on discounted items."),
    ("SiteD", "Returns allowed within 21 days. Store credit only."),
    ("SiteE", "Exchanges allowed within 15 days. No cash refunds.")
  ]

  const NotAvailable: string := "Return policy not available."

  /** `get_return_policy`: the policy text of a seller, or the sentinel. */
  function GetReturnPolicy(storeName: string): (r: string)
    ensures r == NotAvailable <==> storeName !in {"SiteA", "SiteB", "SiteC", "SiteD", "SiteE"}
    ensures storeName == "SiteB" ==> r == "Returns accepted within 14 days. Buyer pays return shipping."
    ensures r != NotAvailable ==> (storeName, r) in Policies
  {
    match Lookup(Policies, storeName)
    case Some(text) => text
    case None => NotAvailable
  }

  /** Every listed seller gets its own policy text back. */
  lemma GetReturnPolicyReadsTable(i: nat)
    requires i < |Policies|
    ensures GetReturnPolicy(Policies[i].0) == Policies[i].1
  {
    var name := Policies[i].0;
    assert Distinct(Keys(Policies));
    var r := GetReturnPolicy(name);
    assert (name, r) in Policies;
    var j :| 0 <= j < |Policies| && Policies[j] == (name, r);
    assert Keys(Policies)[i] == Keys(Policies)[j];
  }
}
